=== FILE: README.md ===
# Twin-crane routing by dynamic programming, modelled in Dafny

Two cranes share one rail and may never pass each other. Each crane has
its own ordered list of requests; a request is a bay (rail position) and
a service duration. The routine `getMinimumMakespanSchedule` of
`twincranerouting.py` searches for a makespan-minimal schedule. At every
point where the cranes' pending requests would make them cross, it
branches on which crane goes first. The other crane steps aside by one
bay.

The model covers the whole search core:

- `motion.dfy` (`CraneMotion`) models the crane-motion model. This covers
  the request table, crane records, end times of pending requests,
  proceeding for a number of periods, jumping to the next request, the
  finished test and the unobstructed completion time of a crane.
- `state.dfy` (`DpState`) models search states. This covers resuming a
  state as a crane pair, the root state and the key order with its
  three-way comparator.
- `interference.dfy` (`InterferenceTest`) models the crossing test.
- `transitions.dfy` (`TransitionEngine`) models the transition engine. This
  covers conflict branches, conflict-free stretches and the terminal
  state.
- `frontier.dfy` (`Frontier`) models the sorted, deduplicated frontier.
  This covers binary search, insert-or-relax, and a bound on the number
  of distinct keys.
- `priorities.dfy` (`PriorityTable`) models the priority table and the
  backward walk that fills it.
- `driver.dfy` (`Driver`) models one expansion step and the full search
  loop, including its termination.

Modelling choices:

- The request table is an explicit read-only parameter
  (`Requests(crane0, crane1)`). In twincranerouting.py it is a module-level
  global.
- Cranes and states are immutable values. The throwaway crane used by the
  interference test is therefore just a copy of the value, and the live
  pair cannot change.
- Integers are unbounded, as they are in Python. The midpoint
  `int((low+high)/2)` of the binary search is `(low + high) / 2`. In
  Python 3, `/` is true division, so the sum goes through a float and
  `int` truncates it. That is exact while low + high < 2^53. Both operands
  are non-negative, so truncation and Dafny's division agree. The frontier
  holds at most (len0 + 2)(len1 + 2)2 states, far below that bound.
- `_letCraneProceedPeriods` is kept as written. When time is left after
  arrival, it recomputes the remaining work from the request's full
  duration and ignores work already done (twincranerouting.py:127-128).
  `ProceedIgnoresRemainingWork` shows the effect: a working crane that
  proceeds for exactly its remaining time is still working.
- A zero-duration request is reached by proceeding for exactly the
  travel time, but that does not close it. Proceeding any longer closes
  it: the recomputed work is negative, so `endReq` runs
  (twincranerouting.py:127-132). `ProceedUntilEndTime` and
  `ZeroDurationClosesAfterArrival` state both cases.
- On equal end times crane 1 counts as finishing first
  (twincranerouting.py:209).
- Every non-terminal successor of a state has bay1 = bay0 + 1. The
  terminal state need not: there each crane stands on its own last stop,
  and those can be in either order.
- With an empty request list the first expansion of the root fails:
  `_endTimesNextReq` reads `requests[i][0]` (twincranerouting.py:86). The
  driver and `LetCranesFinish` therefore require both lists to be
  non-empty.

## Model

| member | source | states |
|---|---|---|
| CraneMotion.EndReq | twincranerouting.py:59-62 | Closing a request advances the cursor by one, stops the crane working and clears its remaining work. The crane does not move and keeps its number |
| CraneMotion.EndTimes | twincranerouting.py:74-88 | For a well-numbered pair (crane i reads list i). With non-negative durations and remaining work, the end time of each crane's pending request is no earlier than the current time |
| CraneMotion.ProceedPeriods | twincranerouting.py:119-132 | The crane moves exactly min(distance, d) toward its target and never overshoots. With d = 0 nothing changes. With time left after arrival, rest = dur - leftover: if rest > 0 the crane works with remDur = rest, otherwise the request closes (cursor + 1, idle, no remaining work). Short of arrival, the work state is unchanged |
| CraneMotion.ProceedNextReq | twincranerouting.py:135-137 | The crane stands on its pending target. The request is closed through endReq: cursor + 1, not working, remDur 0, same crane |
| CraneMotion.PendingCost | twincranerouting.py:84-88 | The time still needed for the pending request is non-negative when durations and remaining work are |
| CraneMotion.FinishedIffNotPending | twincranerouting.py:140-141 | For a well-numbered pair with non-negative cursors, the pair has finished exactly when it is not the case that both cranes have a request left |
| CraneMotion.FinishTime | twincranerouting.py:104-109 | One crane's completion loop of `_letCranesFinish` never ends before the time it starts from |
| CraneMotion.FinishTimeClosedForm | twincranerouting.py:104-109 | The completion loop ends at start time + pending cost + the sum of all later legs (travel from the previous stop plus service) of the crane's own list |
| CraneMotion.SumLegsFront | twincranerouting.py:104-109 | The leg sum accumulated from the right equals its first leg plus the sum of the rest |
| CraneMotion.ProceedUntilEndTime | twincranerouting.py:84-88 | An idle crane that proceeds for exactly its pending cost (its end time minus the current time) is in the same place as after `_letCraneProceedNextReq` when the duration is positive. A zero-duration stop is reached but left open |
| CraneMotion.ZeroDurationClosesAfterArrival | twincranerouting.py:119-132 | A zero-duration request closes as soon as the crane proceeds for longer than its travel time: the crane ends on the stop with the request closed |
| CraneMotion.NoCompletionBeforeEndTime | twincranerouting.py:119-132 | An idle crane that proceeds for less than its pending cost does not complete its request |
| CraneMotion.ProceedIgnoresRemainingWork | twincranerouting.py:127-128 | A crane already working with 0 < remDur < dur that proceeds for remDur is still working, with remDur = dur - remDur: the work already done is not credited |
| DpState.DeriveCranes | twincranerouting.py:236-253 | Crane i gets bay[i] and cursor confRequest[i] + (1 if it is the prioritized crane), is idle, has no remaining work and carries number i |
| DpState.Root | twincranerouting.py:406 | The root state (start bays, cursors (-1, 0), priority 0, makespan 0, no predecessor) resumes as two fresh cranes at the start bays with cursors (0, 0) |
| DpState.ExpandableIffPending | twincranerouting.py:236-253 | A state is expandable exactly when both of its resumed cranes have a request to serve |
| DpState.DoneIffTerminal | twincranerouting.py:422 | For a state that is expandable or terminal, the driver's stop test holds exactly when the state is the terminal one |
| DpState.Compare | twincranerouting.py:284-309 | 0 exactly on equal keys (confRequest[0], confRequest[1], priocrane). -1 exactly when the FIRST state's key is lexicographically larger. 1 exactly when it is smaller |
| DpState.CompareAntisymmetric | twincranerouting.py:284-309 | Swapping the arguments of the comparator negates its result |
| DpState.KeyTrichotomy | twincranerouting.py:284-309 | Any two keys are related in exactly one way: smaller, equal or larger |
| DpState.BeyondProgressRanksAfter | twincranerouting.py:216 | A state whose recorded cursors reach the resumed cursors of s ranks strictly after s |
| InterferenceTest.InterfereAtSameTime | twincranerouting.py:162-184 | When crane 0 targets at or right of crane 1's target, the simulated copy of the other crane over the window d decides. With crane 0 first, interference holds iff bay1 - d <= target0. With crane 1 first, it holds iff target1 <= bay0 + d |
| InterferenceTest.Interference | twincranerouting.py:146-160 | There is never interference while target0 < target1. Otherwise, for a non-negative window, interference holds exactly under the reach conditions above |
| TransitionEngine.LetCranesFinish | twincranerouting.py:93-114 | The terminal state has cursors (len0, len1), priority 0 and each crane on its last stop. Its makespan is the later of the two unobstructed finish times, and it is no earlier than the given time |
| TransitionEngine.PriorityBays | twincranerouting.py:213-215 | The prioritized crane stands on its target, and the other crane stands directly beside it on its own side (bay1 = bay0 + 1) |
| TransitionEngine.Branch | twincranerouting.py:212-223 | Crane i's branch has priority i, cursors equal to the current progress, crane i on its target, bay1 = bay0 + 1 and makespan = crane i's end time. Resumed, crane i is exactly the crane after `_letCraneProceedNextReq`. The branch is replaced by the terminal state exactly when crane i's request was its last one; otherwise it is the plain priority state. Either way the branch is expandable or terminal |
| TransitionEngine.FirstToEnd | twincranerouting.py:209 | Crane 0 finishes first exactly when its end time is strictly earlier, so crane 1 wins ties. The chosen crane's end time is the earlier of the two |
| TransitionEngine.Pass | twincranerouting.py:225-228 | In a conflict-free pass the crane that finishes first is exactly the crane after `_letCraneProceedNextReq`: on its target with its cursor advanced by one. The other crane is exactly the crane after proceeding for the window, so `ProceedPeriods`' contract gives its move. Its cursor advances by at most one. The requests left strictly decrease, and a pair without negative remaining work keeps none |
| TransitionEngine.ConflictBranches | twincranerouting.py:211-223 | A conflict yields two states, crane 0's branch then crane 1's. Each is expandable or terminal. Branch k is terminal exactly when crane k's pending request is its last. A non-terminal branch k records the live cursors as its conflict pair, has crane k on its target with bay1 = bay0 + 1, and has makespan = crane k's end time |
| TransitionEngine.Run | twincranerouting.py:203-233 | The loop yields 1 or 2 states. A single state is terminal. Two states have priorities 0 and 1 unless replaced by the terminal state, and two non-terminal states share their conflict pair. Every non-terminal state has bay1 = bay0 + 1. No cursor is below the live pair's, and no makespan is before the current time. When the live pair interferes at the first end time, the result is exactly the two branches of that conflict. Each conflict-free pass closes one request of the first crane, which bounds the loop |
| TransitionEngine.Transitions | twincranerouting.py:187-233 | Every successor of an expandable state ranks strictly after it in key order, has no predecessor yet, and is expandable or terminal. A single successor is terminal. Two successors have priorities 0 and 1 unless replaced by the terminal state, and two non-terminal ones share their conflict pair. Every non-terminal successor has bay1 = bay0 + 1. With non-negative durations it is reached no earlier. When the resumed cranes interfere at the first end time, the successors are exactly the two branches of that conflict |
| Frontier.BinSearch | twincranerouting.py:258-280 | A hit returns an index holding st's key. A miss returns -(low+1), where every entry before low is smaller than st and every entry from low on is larger. The result is negative iff the key is absent |
| Frontier.AddOrRefresh | twincranerouting.py:312-327 | The frontier stays strictly sorted and gains exactly st's key. A new key is inserted at the search's index. An existing key keeps everything but its makespan, which becomes min(old, new). Entries ranking below st are untouched |
| Frontier.FrontierBounded | twincranerouting.py:406-422 | A sorted frontier whose cursors lie in [-1, len] holds at most (len0 + 2)(len1 + 2)2 states |
| PriorityTable.PrioritizedCrane | twincranerouting.py:335-342 | Returns Some(value stored for the pair) exactly when a decision exists for it, and None otherwise |
| PriorityTable.DecisionExistsAfterPut | twincranerouting.py:340-346 | After recording a decision, one exists for a pair exactly when it is the recorded pair or one existed before |
| PriorityTable.Empty | twincranerouting.py:331-333 | A new table holds no decision for any pair |
| PriorityTable.PutDecision | twincranerouting.py:344-346 | After recording, the pair maps to the new crane (overwriting), and every other pair reads as before |
| PriorityTable.Walk | twincranerouting.py:360-364 | The walk adds exactly the request pairs of the chain's conflict states. Every value it adds is the priority of a chain state with that pair |
| PriorityTable.StagePrioritySequence | twincranerouting.py:348-366 | A decision exists for (a, b) iff a state strictly between the terminal state and the root on the predecessor chain has cursors (a, b). The stored crane is the priority of such a state |
| Driver.MergeKeepsInv | twincranerouting.py:414-418 | Merging a stamped successor of the state at next keeps the frontier invariant and leaves entries 0..next unchanged, so every stored predecessor index stays valid. The successor's key lands after next |
| Driver.ExpandStep | twincranerouting.py:412-420 | One expansion keeps the frontier sorted with the root first. Every other state links to an earlier, already expanded state. Every state is expandable or terminal. The expanded prefix is unchanged and a later state exists. The frontier's keys afterwards are exactly its old keys plus the key of every successor. An entry with an old key is that old entry, predecessor link included, with a makespan no larger. An entry with a new key is a successor stamped with next as its predecessor. Every entry's makespan is no later than that of any successor with its key, and equals the makespan of an old entry or a successor with its key |
| Driver.JustifiedAfterStep | twincranerouting.py:414-418 | After one expansion every entry but the root is still a successor of the state its predecessor link names, stamped with that link and reached no later than that successor. The expanded prefix, now including next, stays expandable |
| Driver.TerminalIsLast | twincranerouting.py:422-424 | In an invariant frontier the terminal state is the last entry, so the state that stops the loop is `states[-1]` |
| Driver.MinimumMakespanSchedule | twincranerouting.py:381-424 | The search terminates. The last frontier entry is terminal with a predecessor. The makespan is that entry's, and is non-negative for non-negative durations. The priority table is the one reconstructed from that entry's chain. Every entry but the root is a successor of the state its predecessor link names, stamped with that link and reached no later than that successor |

## Left out

- `example.py` builds two request lists and prints the makespan. It is a caller, not part of the search.
- `Crane.evade`, `Crane.startReq` and `Crane.workSomePeriods` (twincranerouting.py:50-69) are never called by the search.
- Python object aliasing and list-copy slicing are not modelled: states and cranes are values.
- Empty request lists are excluded by precondition. With an empty list the code raises an IndexError at the root's first expansion (twincranerouting.py:86), so there is no result to model.
- Driver.MinimumMakespanSchedule: does not state that the makespan is minimal. Relaxation keeps the first-found predecessor (twincranerouting.py:326-327), so the table can describe a path other than the one with the relaxed makespan, and the search is not proved optimal.
- TransitionEngine.Run: the shape of the result is stated, and so is the outcome when the live pair interferes straight away. When interference comes only after one or more conflict-free passes, which pass meets it, and so which conflict pair the branches record, is not stated.
- TransitionEngine.Transitions: the same gap as Run. Interference on the resumed cranes at the first end time yields exactly that conflict's branches. Interference reached after conflict-free passes is described only by the shape of the result.
- Driver.MinimumMakespanSchedule: the final frontier is tied to the expansions entry by entry: each entry is a successor of its linked predecessor. It is not stated that every successor of every expanded state has its key in the final frontier. ExpandStep states this one step at a time.
- The O(n^3) running-time claim is not modelled. Only termination is proved, through the bound on distinct keys.

=== FILE: driver.dfy ===
/** The search driver (getMinimumMakespanSchedule): expands frontier states
    in key order until the state at the cursor is the terminal one, then
    reconstructs the priority table of the terminal state's path. */
module Driver {
  import opened CraneMotion
  import opened DpState
  import opened Frontier
  import opened PriorityTable
  import opened TransitionEngine

  /** Invariant of the frontier when the states before index n have been
      expanded: sorted without duplicate keys, the root first, every other
      state linked to an already expanded, earlier state, every state
      expandable or terminal, and no negative makespan. */
  predicate Inv(reqs: Requests, states: seq<State>, n: int) {
    && Sorted(states)
    && |states| > 0
    && states[0].prev.None?
    && (forall k | 0 < k < |states| ::
          states[k].prev.Some? && states[k].prev.value < k && states[k].prev.value < n)
    && (forall k | 0 <= k < |states| :: Expandable(reqs, states[k]) || IsTerminal(reqs, states[k]))
    && (ValidDurations(reqs) ==> forall k | 0 <= k < |states| :: states[k].makespan >= 0)
  }

  lemma InvLinked(reqs: Requests, states: seq<State>, n: int)
    requires Inv(reqs, states, n)
    ensures Linked(states)
  {
  }

  lemma InvInBox(reqs: Requests, states: seq<State>, n: int)
    requires Inv(reqs, states, n)
    ensures forall k | 0 <= k < |states| :: InBox(reqs, states[k])
  {
  }

  /** An invariant frontier holds at most KeyBound(reqs) states. */
  lemma InvBounded(reqs: Requests, states: seq<State>, n: int)
    requires Inv(reqs, states, n)
    ensures |states| <= KeyBound(reqs)
  {
    InvInBox(reqs, states, n);
    FrontierBounded(reqs, states);
  }

  lemma SamePrefixSameHead(a: seq<State>, b: seq<State>, n: int)
    requires 0 <= n < |a| && n < |b| && a[..n + 1] == b[..n + 1]
    ensures a[0] == b[0]
  {
    assert a[..n + 1][0] == b[..n + 1][0];
  }

  /** Inserting a successor of the state at index next at position i keeps
      the invariant once next is expanded, and leaves entries 0..next as
      they were. */
  lemma {:induction false} InsertKeepsInv(reqs: Requests, states: seq<State>, next: int, s: State, i: int)
    requires 0 <= next < i <= |states|
    requires Inv(reqs, states, next + 1)
    requires s.prev == Some(next)
    requires IsTerminal(reqs, s) || Expandable(reqs, s)
    requires ValidDurations(reqs) ==> s.makespan >= 0
    requires Sorted(states[..i] + [s] + states[i..])
    ensures var r := states[..i] + [s] + states[i..];
      Inv(reqs, r, next + 1) && r[..next + 1] == states[..next + 1] && next + 1 < |r|
  {
    var r := states[..i] + [s] + states[i..];
    forall k | 0 <= k < |r|
      ensures k < i ==> r[k] == states[k]
      ensures k == i ==> r[k] == s
      ensures k > i ==> r[k] == states[k - 1]
    {
    }
    forall k | 0 < k < |r|
      ensures r[k].prev.Some? && r[k].prev.value < k && r[k].prev.value < next + 1
    {
      if k > i {
        assert states[k - 1].prev.value < k - 1;
      }
    }
    forall k | 0 <= k < |r|
      ensures Expandable(reqs, r[k]) || IsTerminal(reqs, r[k])
    {
      if k > i {
        assert Expandable(reqs, states[k - 1]) || IsTerminal(reqs, states[k - 1]);
      }
    }
    if ValidDurations(reqs) {
      forall k | 0 <= k < |r|
        ensures r[k].makespan >= 0
      {
        if k > i {
          assert states[k - 1].makespan >= 0;
        }
      }
    }
    assert r[..next + 1] == states[..next + 1];
  }

  /** Relaxing the makespan of entry j keeps the invariant and every other
      entry. */
  lemma {:induction false} RelaxKeepsInv(reqs: Requests, states: seq<State>, n: int, j: int, m: int)
    requires Inv(reqs, states, n) && 0 <= j < |states|
    requires ValidDurations(reqs) ==> m >= 0
    ensures var r := states[j := states[j].(makespan := Min(states[j].makespan, m))];
      Inv(reqs, r, n) && r[..j] == states[..j]
  {
    var r := states[j := states[j].(makespan := Min(states[j].makespan, m))];
    assert Sorted(r) by {
      forall a, b | 0 <= a < b < |r| ensures KeyLess(r[a], r[b]) {
        assert KeyLess(states[a], states[b]);
      }
    }
    assert r[..j] == states[..j];
  }

  /** Merging one successor of the state at index next into the frontier
      keeps the invariant, leaves entries 0..next unchanged and places the
      successor's key after next. */
  lemma {:induction false} MergeKeepsInv(reqs: Requests, states: seq<State>, next: int, s: State, r: seq<State>)
    requires 0 <= next < |states|
    requires Inv(reqs, states, next + 1)
    requires KeyLess(states[next], s)
    requires s.prev == Some(next)
    requires IsTerminal(reqs, s) || Expandable(reqs, s)
    requires ValidDurations(reqs) ==> s.makespan >= 0
    requires Merged(states, s, r)
    ensures Inv(reqs, r, next + 1)
    ensures r[..next + 1] == states[..next + 1]
    ensures next + 1 < |r|
  {
    forall k | 0 <= k <= next
      ensures KeyLess(states[k], s) && !SameKey(states[k], s) && r[k] == states[k]
    {
      if k < next {
        assert KeyLess(states[k], states[next]);
      }
      KeyTrichotomy(states[k], s);
    }
    if forall j | 0 <= j < |states| :: !SameKey(states[j], s) {
      var i :| 0 <= i <= |states| && r == states[..i] + [s] + states[i..];
      assert r[i] == s;
      assert i > next;
      InsertKeepsInv(reqs, states, next, s, i);
    } else {
      var j :| 0 <= j < |states| && SameKey(states[j], s);
      assert j > next;
      RelaxKeepsInv(reqs, states, next + 1, j, s.makespan);
      assert r[..j][..next + 1] == states[..j][..next + 1];
    }
  }

  /** A successor of the state at index next, stamped with next as its
      predecessor, ranks after that state and meets the frontier's shape. */
  lemma StampedSuccessor(reqs: Requests, states: seq<State>, next: int, t: int)
    requires 0 <= next < |states|
    requires Inv(reqs, states, next)
    requires Expandable(reqs, states[next])
    requires 0 <= t < |Transitions(reqs, states[next])|
    ensures var s := Transitions(reqs, states[next])[t].(prev := Some(next));
      && KeyLess(states[next], s)
      && (IsTerminal(reqs, s) || Expandable(reqs, s))
      && (ValidDurations(reqs) ==> s.makespan >= 0)
  {
    var successors := Transitions(reqs, states[next]);
    assert successors[t] in successors;
  }

  /** e is the old entry j with its makespan possibly lowered. */
  predicate KeptOld(states: seq<State>, j: int, e: State)
    requires 0 <= j < |states|
  {
    SameKey(states[j], e) && e == states[j].(makespan := e.makespan) && e.makespan <= states[j].makespan
  }

  /** Where an entry e of the frontier comes from once the first t
      successors succ of the state at index next are merged into states: an
      entry with an old key is that old entry with a makespan no larger, and
      an entry with a new key is a successor stamped with next as its
      predecessor. */
  predicate Origin(states: seq<State>, succ: seq<State>, next: nat, t: int, e: State)
    requires 0 <= t <= |succ|
  {
    || (exists j | 0 <= j < |states| :: KeptOld(states, j, e))
    || ((forall j | 0 <= j < |states| :: !SameKey(states[j], e)) &&
        exists u | 0 <= u < t :: e == succ[u].(prev := Some(next), makespan := e.makespan))
  }

  /** The entry's makespan is no later than that of any merged successor
      with its key, and it is the makespan of an old entry or of a merged
      successor with its key. */
  predicate BestMakespan(states: seq<State>, succ: seq<State>, t: int, e: State)
    requires 0 <= t <= |succ|
  {
    && (forall u | 0 <= u < t && SameKey(e, succ[u]) :: e.makespan <= succ[u].makespan)
    && ((exists j | 0 <= j < |states| :: SameKey(states[j], e) && e.makespan == states[j].makespan) ||
        (exists u | 0 <= u < t :: SameKey(succ[u], e) && e.makespan == succ[u].makespan))
  }

  predicate Derived(states: seq<State>, succ: seq<State>, next: nat, t: int, e: State)
    requires 0 <= t <= |succ|
  {
    Origin(states, succ, next, t, e) && BestMakespan(states, succ, t, e)
  }

  /** Before any merge every entry derives from itself. */
  lemma DerivedInit(states: seq<State>, succ: seq<State>, next: nat)
    ensures forall k | 0 <= k < |states| :: Derived(states, succ, next, 0, states[k])
  {
    forall k | 0 <= k < |states|
      ensures Derived(states, succ, next, 0, states[k])
    {
      assert KeptOld(states, k, states[k]);
    }
  }

  /** An entry whose key differs from successor t is unaffected by merging it. */
  lemma DerivedWiden(states: seq<State>, succ: seq<State>, next: nat, t: int, e: State)
    requires 0 <= t < |succ|
    requires Derived(states, succ, next, t, e) && !SameKey(e, succ[t])
    ensures Derived(states, succ, next, t + 1, e)
  {
    if !exists j | 0 <= j < |states| :: KeptOld(states, j, e) {
      var u :| 0 <= u < t && e == succ[u].(prev := Some(next), makespan := e.makespan);
      assert 0 <= u < t + 1;
    }
    if !exists j | 0 <= j < |states| :: SameKey(states[j], e) && e.makespan == states[j].makespan {
      var u :| 0 <= u < t && SameKey(succ[u], e) && e.makespan == succ[u].makespan;
      assert 0 <= u < t + 1;
    }
  }

  /** Successor t, stamped, with a key found neither among the old entries
      nor among the successors merged before it. */
  lemma DerivedNew(states: seq<State>, succ: seq<State>, next: nat, t: int, s: State)
    requires 0 <= t < |succ| && s == succ[t].(prev := Some(next))
    requires KeyOf(s) !in Keys(states) + Keys(succ[..t])
    ensures Derived(states, succ, next, t + 1, s)
  {
    forall j | 0 <= j < |states|
      ensures !SameKey(states[j], s)
    {
      assert KeyOf(states[j]) in Keys(states);
    }
    forall u | 0 <= u < t
      ensures !SameKey(s, succ[u])
    {
      assert succ[..t][u] == succ[u];
      assert KeyOf(succ[u]) in Keys(succ[..t]);
    }
    assert s == succ[t].(prev := Some(next), makespan := s.makespan);
  }

  /** The entry with successor t's key, relaxed to the smaller makespan. */
  lemma DerivedRelax(states: seq<State>, succ: seq<State>, next: nat, t: int, e: State)
    requires 0 <= t < |succ|
    requires Derived(states, succ, next, t, e) && SameKey(e, succ[t])
    ensures Derived(states, succ, next, t + 1, e.(makespan := Min(e.makespan, succ[t].makespan)))
  {
    var e' := e.(makespan := Min(e.makespan, succ[t].makespan));
    if j :| 0 <= j < |states| && KeptOld(states, j, e) {
      assert KeptOld(states, j, e');
    } else {
      var u :| 0 <= u < t && e == succ[u].(prev := Some(next), makespan := e.makespan);
      assert e' == succ[u].(prev := Some(next), makespan := e'.makespan);
      assert 0 <= u < t + 1;
      assert forall j | 0 <= j < |states| :: !SameKey(states[j], e');
    }
    assert Origin(states, succ, next, t + 1, e');
    if e'.makespan == e.makespan {
      if !exists j | 0 <= j < |states| :: SameKey(states[j], e) && e.makespan == states[j].makespan {
        var u :| 0 <= u < t && SameKey(succ[u], e) && e.makespan == succ[u].makespan;
        assert 0 <= u < t + 1;
      }
    } else {
      assert SameKey(succ[t], e') && e'.makespan == succ[t].makespan;
    }
  }

  /** Merging stamped successor t keeps every entry derived. */
  lemma {:induction false} DerivedStep(states: seq<State>, succ: seq<State>, next: nat, t: int,
                                       r: seq<State>, s: State, merged: seq<State>)
    requires 0 <= t < |succ| && s == succ[t].(prev := Some(next))
    requires Sorted(r)
    requires Keys(r) == Keys(states) + Keys(succ[..t])
    requires forall k | 0 <= k < |r| :: Derived(states, succ, next, t, r[k])
    requires Merged(r, s, merged)
    ensures forall k | 0 <= k < |merged| :: Derived(states, succ, next, t + 1, merged[k])
  {
    if forall j | 0 <= j < |r| :: !SameKey(r[j], s) {
      var i :| 0 <= i <= |r| && merged == r[..i] + [s] + r[i..];
      forall x | x in r
        ensures KeyOf(x) != KeyOf(s)
      {
        var j :| 0 <= j < |r| && r[j] == x;
        assert !SameKey(r[j], s);
      }
      assert KeyOf(s) !in Keys(r);
      forall k | 0 <= k < |merged|
        ensures Derived(states, succ, next, t + 1, merged[k])
      {
        if k < i {
          assert merged[k] == r[k];
          DerivedWiden(states, succ, next, t, r[k]);
        } else if k == i {
          assert merged[k] == s;
          DerivedNew(states, succ, next, t, s);
        } else {
          assert merged[k] == r[k - 1];
          DerivedWiden(states, succ, next, t, r[k - 1]);
        }
      }
    } else {
      var j :| 0 <= j < |r| && SameKey(r[j], s);
      assert merged == r[j := r[j].(makespan := Min(r[j].makespan, s.makespan))];
      forall k | 0 <= k < |merged|
        ensures Derived(states, succ, next, t + 1, merged[k])
      {
        if k == j {
          DerivedRelax(states, succ, next, t, r[j]);
        } else {
          KeyTrichotomy(r[k], r[j]);
          assert KeyLess(r[k], r[j]) || KeyLess(r[j], r[k]);
          DerivedWiden(states, succ, next, t, r[k]);
        }
      }
    }
  }

  /** Merging the stamped successor t adds exactly its key to the keys of
      the frontier and the successors merged before it. */
  lemma MergedKeys(states: seq<State>, ss: seq<State>, t: int, r: seq<State>, s: State, merged: seq<State>)
    requires 0 <= t < |ss| && KeyOf(s) == KeyOf(ss[t])
    requires Keys(r) == Keys(states) + Keys(ss[..t])
    requires Merged(r, s, merged)
    ensures Keys(merged) == Keys(states) + Keys(ss[..t + 1])
  {
    assert ss[..t + 1] == ss[..t] + [ss[t]];
  }

  /** One pass of the driver loop on the state at index next: stamp each
      successor with its predecessor and merge it into the frontier, which
      then holds exactly its old keys and the keys of every successor. */
  method ExpandStep(reqs: Requests, states: seq<State>, next: int) returns (r: seq<State>)
    requires 0 <= next < |states|
    requires Inv(reqs, states, next)
    requires Expandable(reqs, states[next])
    ensures Inv(reqs, r, next + 1)
    ensures |r| >= |states|
    ensures r[..next + 1] == states[..next + 1]
    ensures next + 1 < |r|
    ensures Keys(r) == Keys(states) + Keys(Transitions(reqs, states[next]))
    ensures var succ := Transitions(reqs, states[next]);
      forall k | 0 <= k < |r| :: Derived(states, succ, next, |succ|, r[k])
  {
    var successors := Transitions(reqs, states[next]);
    r := states;
    DerivedInit(states, successors, next);
    for t := 0 to |successors|
      invariant Inv(reqs, r, next + 1)
      invariant |r| >= |states|
      invariant r[..next + 1] == states[..next + 1]
      invariant t > 0 ==> next + 1 < |r|
      invariant Keys(r) == Keys(states) + Keys(successors[..t])
      invariant forall k | 0 <= k < |r| :: Derived(states, successors, next, t, r[k])
    {
      var s := successors[t].(prev := Some(next));
      StampedSuccessor(reqs, states, next, t);
      assert r[next] == states[next] by {
        assert r[..next + 1][next] == states[..next + 1][next];
      }
      var merged := AddOrRefresh(s, r);
      MergeKeepsInv(reqs, r, next, s, merged);
      DerivedStep(states, successors, next, t, r, s, merged);
      MergedKeys(states, successors, t, r, s, merged);
      r := merged;
    }
    assert successors[..|successors|] == successors;
  }

  /** Entry k is a successor of the state its predecessor link names,
      stamped with that link, and reached no later than that successor. */
  predicate JustifiedBy(reqs: Requests, states: seq<State>, k: int)
    requires 0 <= k < |states|
  {
    && states[k].prev.Some?
    && states[k].prev.value < |states|
    && Expandable(reqs, states[states[k].prev.value])
    && var p := states[k].prev.value;
       var succ := Transitions(reqs, states[p]);
       exists u | 0 <= u < |succ| ::
         states[k] == succ[u].(prev := Some(p), makespan := states[k].makespan) &&
         states[k].makespan <= succ[u].makespan
  }

  /** Entry k of the frontier after expanding the state at index next keeps
      its justification: an old entry keeps its link, whose target is in the
      unchanged expanded prefix, and a new entry is a successor of next. */
  lemma JustifiedEntry(reqs: Requests, states: seq<State>, next: int, r: seq<State>, k: int)
    requires 0 <= next < |states| && Inv(reqs, states, next) && Expandable(reqs, states[next])
    requires forall i | 0 <= i < next :: Expandable(reqs, states[i])
    requires forall i | 0 < i < |states| :: JustifiedBy(reqs, states, i)
    requires next < |r| && r[..next + 1] == states[..next + 1]
    requires 0 < k < |r| && r[k].prev.Some?
    requires var succ := Transitions(reqs, states[next]);
      Derived(states, succ, next, |succ|, r[k])
    ensures JustifiedBy(reqs, r, k)
  {
    var succ := Transitions(reqs, states[next]);
    assert r[next] == states[next] by {
      assert r[..next + 1][next] == states[..next + 1][next];
    }
    if j :| 0 <= j < |states| && KeptOld(states, j, r[k]) {
      assert j > 0;
      JustifiedOld(reqs, states, next, r, k, j);
    } else {
      var u :| 0 <= u < |succ| && r[k] == succ[u].(prev := Some(next), makespan := r[k].makespan);
      assert SameKey(r[k], succ[u]);
      assert r[k].makespan <= succ[u].makespan;
    }
  }

  /** An old entry j, kept at index k with its makespan possibly lowered,
      keeps its justification. */
  lemma JustifiedOld(reqs: Requests, states: seq<State>, next: int, r: seq<State>, k: int, j: int)
    requires 0 <= next < |states| && Inv(reqs, states, next)
    requires forall i | 0 < i < |states| :: JustifiedBy(reqs, states, i)
    requires next < |r| && r[..next + 1] == states[..next + 1]
    requires 0 < k < |r| && 0 < j < |states| && KeptOld(states, j, r[k])
    ensures JustifiedBy(reqs, r, k)
  {
    assert JustifiedBy(reqs, states, j);
    var p := states[j].prev.value;
    assert r[p] == states[p] by {
      assert r[..next + 1][p] == states[..next + 1][p];
    }
    var u :| 0 <= u < |Transitions(reqs, states[p])| &&
      states[j] == Transitions(reqs, states[p])[u].(prev := Some(p), makespan := states[j].makespan) &&
      states[j].makespan <= Transitions(reqs, states[p])[u].makespan;
    assert r[k] == Transitions(reqs, r[p])[u].(prev := Some(p), makespan := r[k].makespan);
  }

  /** One expansion keeps every non-root entry justified and extends the
      expandable prefix by the expanded state. */
  lemma JustifiedAfterStep(reqs: Requests, states: seq<State>, next: int, r: seq<State>)
    requires 0 <= next < |states| && Inv(reqs, states, next) && Expandable(reqs, states[next])
    requires forall i | 0 <= i < next :: Expandable(reqs, states[i])
    requires forall i | 0 < i < |states| :: JustifiedBy(reqs, states, i)
    requires Inv(reqs, r, next + 1) && next < |r| && r[..next + 1] == states[..next + 1]
    requires var succ := Transitions(reqs, states[next]);
      forall k | 0 <= k < |r| :: Derived(states, succ, next, |succ|, r[k])
    ensures forall i | 0 < i < |r| :: JustifiedBy(reqs, r, i)
    ensures forall i | 0 <= i < next + 1 :: Expandable(reqs, r[i])
  {
    forall i | 0 < i < |r|
      ensures JustifiedBy(reqs, r, i)
    {
      JustifiedEntry(reqs, states, next, r, i);
    }
    forall i | 0 <= i < next + 1
      ensures Expandable(reqs, r[i])
    {
      assert r[..next + 1][i] == states[..next + 1][i];
    }
  }

  /** A terminal state at index n of an invariant frontier is its last entry. */
  lemma TerminalIsLast(reqs: Requests, states: seq<State>, n: int, m: int)
    requires Inv(reqs, states, m)
    requires 0 <= n < |states| && IsTerminal(reqs, states[n])
    ensures n == |states| - 1
  {
    forall k | 0 <= k < |states|
      ensures !KeyLess(states[n], states[k])
    {
      assert Expandable(reqs, states[k]) || IsTerminal(reqs, states[k]);
    }
    assert !KeyLess(states[n], states[|states| - 1]);
  }

  /** Minimum-makespan schedule search (getMinimumMakespanSchedule). Returns
      the priority table of the terminal state's path, its makespan and the
      final frontier, whose last entry is the terminal state. */
  method MinimumMakespanSchedule(reqs: Requests, start: (int, int))
    returns (prios: Priorities, makespan: int, frontier: seq<State>)
    requires |reqs.crane0| > 0 && |reqs.crane1| > 0
    ensures Sorted(frontier) && Linked(frontier) && |frontier| > 1
    ensures frontier[0] == Root(start)
    ensures IsTerminal(reqs, frontier[|frontier| - 1])
    ensures makespan == frontier[|frontier| - 1].makespan
    ensures frontier[|frontier| - 1].prev.Some?
    ensures prios == StagePrioritySequence(frontier, frontier[|frontier| - 1])
    ensures ValidDurations(reqs) ==> makespan >= 0
    ensures forall k | 0 < k < |frontier| :: JustifiedBy(reqs, frontier, k)
  {
    var states := [Root(start)];
    var next := 0;
    var finished := false;
    while !finished
      invariant 0 <= next < |states|
      invariant Inv(reqs, states, next)
      invariant states[0] == Root(start)
      invariant finished <==> IsDone(reqs, states[next])
      invariant forall i | 0 <= i < next :: Expandable(reqs, states[i])
      invariant forall i | 0 < i < |states| :: JustifiedBy(reqs, states, i)
      decreases KeyBound(reqs) - next
    {
      InvBounded(reqs, states, next);
      var expanded := ExpandStep(reqs, states, next);
      SamePrefixSameHead(states, expanded, next);
      JustifiedAfterStep(reqs, states, next, expanded);
      states := expanded;
      next := next + 1;
      finished := states[next].conf.0 >= |reqs.crane0| && states[next].conf.1 >= |reqs.crane1|;
    }
    TerminalIsLast(reqs, states, next, next);
    InvLinked(reqs, states, next);
    frontier := states;
    var last := states[|states| - 1];
    makespan := last.makespan;
    prios := StagePrioritySequence(states, last);
  }
}

=== FILE: frontier.dfy ===
/** The deduplicated frontier: the list of discovered states, strictly
    sorted by the key (conf.0, conf.1, prio), searched by binary search and
    updated by insert-or-relax. */
module Frontier {
  import opened CraneMotion
  import opened DpState

  /** Strictly ascending keys, hence no key twice. */
  predicate Sorted(states: seq<State>) {
    forall i, j | 0 <= i < j < |states| :: KeyLess(states[i], states[j])
  }

  /** Every predecessor link points to an earlier entry. */
  predicate Linked(states: seq<State>) {
    forall k | 0 <= k < |states| && states[k].prev.Some? :: states[k].prev.value < k
  }

  function KeyOf(s: State): (int, int, int) {
    (s.conf.0, s.conf.1, s.prio)
  }

  function Keys(states: seq<State>): set<(int, int, int)> {
    set s | s in states :: KeyOf(s)
  }

  /** Binary search for the key of st (_binSearch). A hit returns its index;
      a miss returns -(low + 1), where low is the insertion index: every entry
      before it ranks lower than st and every entry from it on ranks higher. */
  method BinSearch(states: seq<State>, st: State) returns (pos: int)
    requires Sorted(states)
    ensures 0 <= pos ==> pos < |states| && SameKey(states[pos], st)
    ensures pos < 0 ==>
      && -pos - 1 <= |states|
      && (forall j | 0 <= j < -pos - 1 :: KeyLess(states[j], st))
      && (forall j | -pos - 1 <= j < |states| :: KeyLess(st, states[j]))
    ensures pos < 0 <==> forall j | 0 <= j < |states| :: !SameKey(states[j], st)
  {
    var low := 0;
    var high := |states| - 1;
    while low <= high
      invariant 0 <= low <= high + 1 <= |states|
      invariant forall j | 0 <= j < low :: KeyLess(states[j], st)
      invariant forall j | high < j < |states| :: KeyLess(st, states[j])
    {
      var mid := (low + high) / 2;
      var compval := Compare(st, states[mid]);
      if compval == -1 {
        low := mid + 1;
      }
      if compval == 1 {
        high := mid - 1;
      }
      if compval == 0 {
        return mid;
      }
    }
    forall j | 0 <= j < |states|
      ensures !SameKey(states[j], st)
    {
      KeyTrichotomy(states[j], st);
    }
    return -(low + 1);
  }

  /** Inserting st at an index that splits the sorted list around its key
      keeps the list sorted. */
  lemma {:induction false} InsertKeepsSorted(states: seq<State>, st: State, i: int)
    requires Sorted(states) && 0 <= i <= |states|
    requires forall j | 0 <= j < i :: KeyLess(states[j], st)
    requires forall j | i <= j < |states| :: KeyLess(st, states[j])
    ensures Sorted(states[..i] + [st] + states[i..])
  {
    var r := states[..i] + [st] + states[i..];
    forall a, b | 0 <= a < b < |r|
      ensures KeyLess(r[a], r[b])
    {
      if b < i {
        assert r[a] == states[a] && r[b] == states[b];
      } else if b == i {
        assert r[a] == states[a];
      } else if a < i {
        assert r[a] == states[a] && r[b] == states[b - 1];
      } else if a == i {
        assert r[b] == states[b - 1];
      } else {
        assert r[a] == states[a - 1] && r[b] == states[b - 1];
      }
    }
  }

  /** Inserting st at an index that splits the sorted list around its key
      keeps the list sorted, adds exactly st's key and leaves the entries
      below the index where they were. */
  lemma {:induction false} InsertFacts(states: seq<State>, st: State, i: int)
    requires Sorted(states) && 0 <= i <= |states|
    requires forall j | 0 <= j < i :: KeyLess(states[j], st)
    requires forall j | i <= j < |states| :: KeyLess(st, states[j])
    ensures var r := states[..i] + [st] + states[i..];
      && Sorted(r)
      && Keys(r) == Keys(states) + {KeyOf(st)}
      && (forall j | 0 <= j < |states| && KeyLess(states[j], st) :: r[j] == states[j])
    ensures forall j | 0 <= j < |states| :: !SameKey(states[j], st)
  {
    var r := states[..i] + [st] + states[i..];
    forall k | 0 <= k < |r|
      ensures k < i ==> r[k] == states[k]
      ensures k == i ==> r[k] == st
      ensures k > i ==> r[k] == states[k - 1]
    {
    }
    InsertKeepsSorted(states, st, i);
    assert Keys(r) == Keys(states) + {KeyOf(st)} by {
      assert r[i] == st;
      forall x | x in Keys(states) ensures x in Keys(r) {
        var s :| s in states && KeyOf(s) == x;
        var k :| 0 <= k < |states| && states[k] == s;
        if k < i { assert r[k] == s; } else { assert r[k + 1] == s; }
      }
    }
    forall j | 0 <= j < |states|
      ensures !SameKey(states[j], st)
    {
      KeyTrichotomy(states[j], st);
    }
    forall j | 0 <= j < |states| && KeyLess(states[j], st)
      ensures r[j] == states[j]
    {
      KeyTrichotomy(states[j], st);
    }
  }

  /** Lowering the makespan of the entry at pos, whose key is st's, keeps
      the list sorted and its keys as they were; pos is the only entry with
      that key. */
  lemma {:induction false} RelaxFacts(states: seq<State>, st: State, pos: int)
    requires Sorted(states) && 0 <= pos < |states| && SameKey(states[pos], st)
    ensures var r := states[pos := states[pos].(makespan := Min(states[pos].makespan, st.makespan))];
      && Sorted(r)
      && Keys(r) == Keys(states) + {KeyOf(st)}
      && (forall j | 0 <= j < |states| && KeyLess(states[j], st) :: r[j] == states[j])
    ensures forall j | 0 <= j < |states| && SameKey(states[j], st) :: j == pos
  {
    var r := states[pos := states[pos].(makespan := Min(states[pos].makespan, st.makespan))];
    assert Sorted(r) by {
      forall a, b | 0 <= a < b < |r| ensures KeyLess(r[a], r[b]) {
        assert KeyLess(states[a], states[b]);
      }
    }
    assert Keys(r) == Keys(states) + {KeyOf(st)} by {
      assert KeyOf(r[pos]) == KeyOf(st);
      forall x | x in Keys(states) ensures x in Keys(r) {
        var s :| s in states && KeyOf(s) == x;
        var k :| 0 <= k < |states| && states[k] == s;
        assert KeyOf(r[k]) == x;
      }
      forall x | x in Keys(r) ensures x in Keys(states) {
        var s :| s in r && KeyOf(s) == x;
        var k :| 0 <= k < |r| && r[k] == s;
        assert KeyOf(states[k]) == x;
      }
    }
    assert forall j | 0 <= j < |states| && j != pos :: !SameKey(states[j], st);
    forall j | 0 <= j < |states| && KeyLess(states[j], st)
      ensures r[j] == states[j]
    {
      KeyTrichotomy(states[j], st);
    }
  }

  /** r is states with st merged in: still strictly sorted and holding
      exactly one more key, st's; a new key is inserted at the index that
      splits the list around it; an existing key only has its makespan
      lowered to min(old, new), its predecessor link and everything else
      kept; entries ranking below st stay where they were. */
  predicate Merged(states: seq<State>, st: State, r: seq<State>) {
    && Sorted(r)
    && Keys(r) == Keys(states) + {KeyOf(st)}
    && |r| >= |states|
    && (forall j | 0 <= j < |states| && KeyLess(states[j], st) :: r[j] == states[j])
    && ((forall j | 0 <= j < |states| :: !SameKey(states[j], st)) ==>
          exists i | 0 <= i <= |states| :: r == states[..i] + [st] + states[i..])
    && (forall j | 0 <= j < |states| && SameKey(states[j], st) ::
          r == states[j := states[j].(makespan := Min(states[j].makespan, st.makespan))])
  }

  /** Adds st to the frontier, or relaxes the entry with its key to the
      smaller makespan (_addOrRefresh). A new key is inserted where the
      binary search reports it; an existing entry keeps its predecessor link
      and everything but its makespan, and every other entry is untouched. */
  method AddOrRefresh(st: State, states: seq<State>) returns (r: seq<State>)
    requires Sorted(states)
    ensures Merged(states, st, r)
  {
    var pos := BinSearch(states, st);
    if pos < 0 {
      var i := -pos - 1;
      InsertFacts(states, st, i);
      r := states[..i] + [st] + states[i..];
    } else {
      RelaxFacts(states, st, pos);
      r := states;
      if states[pos].makespan > st.makespan {
        r := states[pos := states[pos].(makespan := st.makespan)];
      }
      assert r == states[pos := states[pos].(makespan := Min(states[pos].makespan, st.makespan))];
    }
  }

  /** Cursors within the range every frontier state respects. */
  predicate InBox(reqs: Requests, s: State) {
    -1 <= s.conf.0 <= |reqs.crane0| && -1 <= s.conf.1 <= |reqs.crane1|
  }

  /** Number of distinct keys with cursors in the box. */
  function KeyBound(reqs: Requests): int {
    (|reqs.crane0| + 2) * (|reqs.crane1| + 2) * 2
  }

  /** Position of a key in the lexicographic enumeration of the box. */
  function Rank(reqs: Requests, s: State): int {
    ((s.conf.0 + 1) * (|reqs.crane1| + 2) + (s.conf.1 + 1)) * 2 + s.prio
  }

  lemma MulMonotone(x: int, y: int, w: int)
    requires x <= y && w >= 0
    ensures x * w <= y * w
  {
  }

  lemma {:induction false} RankInRange(reqs: Requests, s: State)
    requires InBox(reqs, s)
    ensures 0 <= Rank(reqs, s) < KeyBound(reqs)
  {
    var w := |reqs.crane1| + 2;
    var a := s.conf.0 + 1;
    MulMonotone(0, a, w);
    MulMonotone(a, |reqs.crane0| + 1, w);
    assert (|reqs.crane0| + 1) * w + w == (|reqs.crane0| + 2) * w;
  }

  /** The rank enumerates keys in frontier order. */
  lemma {:induction false} RankMonotone(reqs: Requests, a: State, b: State)
    requires InBox(reqs, a) && InBox(reqs, b) && KeyLess(a, b)
    ensures Rank(reqs, a) < Rank(reqs, b)
  {
    var w := |reqs.crane1| + 2;
    if a.conf.0 < b.conf.0 {
      MulMonotone(a.conf.0 + 2, b.conf.0 + 1, w);
      assert (a.conf.0 + 1) * w + w == (a.conf.0 + 2) * w;
    }
  }

  lemma {:induction false} AscendingRanksBounded(reqs: Requests, states: seq<State>, lo: int)
    requires forall i, j | 0 <= i < j < |states| :: Rank(reqs, states[i]) < Rank(reqs, states[j])
    requires forall k | 0 <= k < |states| :: lo <= Rank(reqs, states[k]) < KeyBound(reqs)
    requires lo <= KeyBound(reqs)
    ensures |states| <= KeyBound(reqs) - lo
  {
    if |states| > 0 {
      var rest := states[1..];
      assert forall k | 0 <= k < |rest| :: rest[k] == states[k + 1];
      AscendingRanksBounded(reqs, rest, Rank(reqs, states[0]) + 1);
    }
  }

  /** A sorted frontier whose cursors stay in the box holds at most
      KeyBound(reqs) states. */
  lemma FrontierBounded(reqs: Requests, states: seq<State>)
    requires Sorted(states)
    requires forall k | 0 <= k < |states| :: InBox(reqs, states[k])
    ensures |states| <= KeyBound(reqs)
  {
    forall i, j | 0 <= i < j < |states|
      ensures Rank(reqs, states[i]) < Rank(reqs, states[j])
    {
      RankMonotone(reqs, states[i], states[j]);
    }
    forall k | 0 <= k < |states|
      ensures 0 <= Rank(reqs, states[k]) < KeyBound(reqs)
    {
      RankInRange(reqs, states[k]);
    }
    AscendingRanksBounded(reqs, states, 0);
  }
}

=== FILE: interference.dfy ===
/** Decides whether the two cranes' pending requests force them to cross
    rail positions at the same time. */
module InterferenceTest {
  import opened CraneMotion

  /** Simulates a copy of the crane that is not first to finish over the
      window until the first crane finishes, and asks whether it is still in
      the first crane's way (_interfereAtSameTime). With t0 >= t1 this holds
      exactly when the other crane comes within reach of the first crane's
      target before the window closes. */
  function InterfereAtSameTime(reqs: Requests, cs: Cranes, finFirst: int, time: int, first: CraneId): (r: bool)
    requires Pending(reqs, cs)
    ensures var t0 := Target(reqs, cs.c0).pos;
            var t1 := Target(reqs, cs.c1).pos;
            var d := finFirst - time;
      d >= 0 && t1 <= t0 ==>
        (r <==> if first == 0 then cs.c1.bay - d <= t0 else t1 <= cs.c0.bay + d)
  {
    // the simulated crane is a copy: the pair cs itself is a value and stays as it is
    var copy := cs.At(Other(first));
    var simulated := ProceedPeriods(reqs, copy, finFirst - time);
    if first == 0 then Target(reqs, cs.c0).pos >= simulated.bay
    else Target(reqs, cs.c1).pos <= simulated.bay
  }

  /** Interference test (interference): no conflict is possible while crane
      0 heads strictly left of crane 1's target; otherwise the simulation
      decides. */
  function Interference(reqs: Requests, cs: Cranes, finFirst: int, time: int, first: CraneId): (r: bool)
    requires Pending(reqs, cs)
    ensures Target(reqs, cs.c0).pos < Target(reqs, cs.c1).pos ==> !r
    ensures var t0 := Target(reqs, cs.c0).pos;
            var t1 := Target(reqs, cs.c1).pos;
            var d := finFirst - time;
      d >= 0 ==>
        (r <==> t1 <= t0 && (if first == 0 then cs.c1.bay - d <= t0 else t1 <= cs.c0.bay + d))
  {
    if Target(reqs, cs.c0).pos >= Target(reqs, cs.c1).pos then
      InterfereAtSameTime(reqs, cs, finFirst, time, first)
    else false
  }
}

=== FILE: motion.dfy ===
/** Motion of a single crane along the shared rail: travelling toward its
    pending request, working there, and closing requests. The request table,
    a module-level global in twincranerouting.py, is an explicit read-only
    parameter here. */
module CraneMotion {

  /** A stop on the rail: where the crane must be and how long it works there. */
  datatype Request = Request(pos: int, dur: int)

  /** Index of one of the two cranes; crane 0 is the left one. */
  type CraneId = i: int | 0 <= i < 2

  function Other(i: CraneId): CraneId { 1 - i }

  function Abs(x: int): int { if x < 0 then -x else x }

  function Min(a: int, b: int): int { if a < b then a else b }

  function Max(a: int, b: int): int { if a < b then b else a }

  /** The two request lists of one computation. */
  datatype Requests = Requests(crane0: seq<Request>, crane1: seq<Request>) {
    function Of(i: CraneId): seq<Request> {
      if i == 0 then crane0 else crane1
    }
  }

  /** Every service duration is non-negative. */
  predicate ValidDurations(reqs: Requests) {
    forall i: CraneId, k | 0 <= k < |reqs.Of(i)| :: reqs.Of(i)[k].dur >= 0
  }

  /** A crane during simulation: its bay, its number, whether it is working
      at its pending stop, the cursor of its pending request and, while
      working, the time left there. */
  datatype Crane = Crane(bay: int, nr: CraneId, working: bool, nextReq: int, remDur: int)

  /** The crane's cursor points at a request of its own list. */
  predicate HasPending(reqs: Requests, c: Crane) {
    0 <= c.nextReq < |reqs.Of(c.nr)|
  }

  function Target(reqs: Requests, c: Crane): Request
    requires HasPending(reqs, c)
  {
    reqs.Of(c.nr)[c.nextReq]
  }

  /** Closes the pending request (Crane.endReq): the cursor moves on by one,
      the crane stops working, and it stays where it is. */
  function EndReq(c: Crane): (r: Crane)
    ensures r.nextReq == c.nextReq + 1 && !r.working && r.remDur == 0
    ensures r.bay == c.bay && r.nr == c.nr
  {
    c.(nextReq := c.nextReq + 1, working := false, remDur := 0)
  }

  /** Time still needed to complete the pending request when nothing
      interferes: the remaining work if already working, otherwise travel
      plus service. */
  function PendingCost(reqs: Requests, c: Crane): (r: int)
    requires c.working || HasPending(reqs, c)
    ensures ValidDurations(reqs) && c.remDur >= 0 ==> r >= 0
  {
    if c.working then c.remDur
    else Abs(c.bay - Target(reqs, c).pos) + Target(reqs, c).dur
  }

  /** The pair of cranes, indexed by crane number. */
  datatype Cranes = Cranes(c0: Crane, c1: Crane) {
    function At(i: CraneId): Crane {
      if i == 0 then c0 else c1
    }

    function With(i: CraneId, c: Crane): Cranes {
      if i == 0 then this.(c0 := c) else this.(c1 := c)
    }
  }

  /** Crane i of the pair carries number i. */
  predicate WellNumbered(cs: Cranes) {
    cs.c0.nr == 0 && cs.c1.nr == 1
  }

  /** Both cranes have a request left to serve. */
  predicate Pending(reqs: Requests, cs: Cranes) {
    WellNumbered(cs) && HasPending(reqs, cs.c0) && HasPending(reqs, cs.c1)
  }

  /** Neither crane carries negative remaining work. */
  predicate NoNegativeRemDur(cs: Cranes) {
    cs.c0.remDur >= 0 && cs.c1.remDur >= 0
  }

  /** End times of both cranes' pending requests, assuming no interference
      (_endTimesNextReq). */
  function EndTimes(reqs: Requests, cs: Cranes, time: int): (r: (int, int))
    requires WellNumbered(cs)
    requires cs.c0.working || HasPending(reqs, cs.c0)
    requires cs.c1.working || HasPending(reqs, cs.c1)
    ensures ValidDurations(reqs) && NoNegativeRemDur(cs) ==> r.0 >= time && r.1 >= time
  {
    (time + PendingCost(reqs, cs.c0), time + PendingCost(reqs, cs.c1))
  }

  /** Lets the crane proceed for d time units (_letCraneProceedPeriods): it
      travels toward its pending stop, and time left after arrival is spent
      working there. The remaining work is recomputed from the request's full
      duration, whatever work was already done. */
  function ProceedPeriods(reqs: Requests, c: Crane, d: int): (r: Crane)
    requires HasPending(reqs, c)
    ensures r.nr == c.nr
    ensures d >= 0 ==> Abs(r.bay - c.bay) == Min(Abs(Target(reqs, c).pos - c.bay), d)
    ensures d >= 0 ==>
      Abs(Target(reqs, c).pos - r.bay) + Abs(r.bay - c.bay) == Abs(Target(reqs, c).pos - c.bay)
    ensures d == 0 ==> r == c
    ensures d <= Abs(Target(reqs, c).pos - c.bay) ==>
      r.working == c.working && r.nextReq == c.nextReq && r.remDur == c.remDur
    ensures d > Abs(Target(reqs, c).pos - c.bay) ==>
      var rest := Target(reqs, c).dur - (d - Abs(Target(reqs, c).pos - c.bay));
      r.bay == Target(reqs, c).pos &&
      (rest > 0 ==> r.working && r.remDur == rest && r.nextReq == c.nextReq) &&
      (rest <= 0 ==> !r.working && r.remDur == 0 && r.nextReq == c.nextReq + 1)
  {
    var goal := Target(reqs, c);
    var timeToStart := Min(Abs(goal.pos - c.bay), d);
    var bay := if c.bay < goal.pos then c.bay + timeToStart
               else if c.bay > goal.pos then c.bay - timeToStart
               else c.bay;
    var moved := c.(bay := bay);
    if d > timeToStart then
      var rest := goal.dur - (d - timeToStart);
      if rest > 0 then moved.(working := true, remDur := rest) else EndReq(moved)
    else moved
  }

  /** Moves the crane straight onto its pending stop and completes that
      request (_letCraneProceedNextReq). */
  function ProceedNextReq(reqs: Requests, c: Crane): (r: Crane)
    requires HasPending(reqs, c)
    ensures r.bay == Target(reqs, c).pos && r.nr == c.nr
    ensures r.nextReq == c.nextReq + 1 && !r.working && r.remDur == 0
  {
    EndReq(c.(bay := Target(reqs, c).pos))
  }

  /** Either crane has no request left (_hasFinished). */
  predicate HasFinished(reqs: Requests, cs: Cranes) {
    cs.c0.nextReq >= |reqs.crane0| || cs.c1.nextReq >= |reqs.crane1|
  }

  /** For a well-numbered pair whose cursors never run below the list start,
      the pair has finished exactly when one crane has nothing left to serve. */
  lemma FinishedIffNotPending(reqs: Requests, cs: Cranes)
    requires WellNumbered(cs) && cs.c0.nextReq >= 0 && cs.c1.nextReq >= 0
    ensures HasFinished(reqs, cs) <==> !Pending(reqs, cs)
  {
  }

  /** Time at which the crane, starting at time t and never obstructed,
      completes all its remaining requests (one crane of _letCranesFinish). */
  function FinishTime(reqs: Requests, c: Crane, t: int): (r: int)
    requires 0 <= c.nextReq <= |reqs.Of(c.nr)|
    ensures ValidDurations(reqs) && c.remDur >= 0 ==> r >= t
    decreases |reqs.Of(c.nr)| - c.nextReq
  {
    if c.nextReq < |reqs.Of(c.nr)| then
      FinishTime(reqs, ProceedNextReq(reqs, c), t + PendingCost(reqs, c))
    else t
  }

  /** Travel from stop j-1 to stop j plus the service at stop j. */
  function Leg(rs: seq<Request>, j: int): int
    requires 1 <= j < |rs|
  {
    Abs(rs[j - 1].pos - rs[j].pos) + rs[j].dur
  }

  /** Sum of the legs lo .. hi-1, accumulated from the right end. */
  function SumLegs(rs: seq<Request>, lo: int, hi: int): int
    requires 1 <= lo && hi <= |rs|
    decreases hi - lo
  {
    if lo >= hi then 0 else SumLegs(rs, lo, hi - 1) + Leg(rs, hi - 1)
  }

  lemma {:induction false} SumLegsFront(rs: seq<Request>, lo: int, hi: int)
    requires 1 <= lo < hi <= |rs|
    ensures SumLegs(rs, lo, hi) == Leg(rs, lo) + SumLegs(rs, lo + 1, hi)
    decreases hi - lo
  {
    if lo + 1 < hi {
      SumLegsFront(rs, lo, hi - 1);
    }
  }

  /** An unobstructed crane finishes after its pending cost plus every later
      leg of its own request list. */
  lemma {:induction false} FinishTimeClosedForm(reqs: Requests, c: Crane, t: int)
    requires 0 <= c.nextReq <= |reqs.Of(c.nr)|
    ensures FinishTime(reqs, c, t) ==
      if c.nextReq < |reqs.Of(c.nr)|
      then t + PendingCost(reqs, c) + SumLegs(reqs.Of(c.nr), c.nextReq + 1, |reqs.Of(c.nr)|)
      else t
    decreases |reqs.Of(c.nr)| - c.nextReq
  {
    var rs := reqs.Of(c.nr);
    if c.nextReq < |rs| {
      var c' := ProceedNextReq(reqs, c);
      var t' := t + PendingCost(reqs, c);
      FinishTimeClosedForm(reqs, c', t');
      if c'.nextReq < |rs| {
        SumLegsFront(rs, c.nextReq + 1, |rs|);
      }
    }
  }

  /** Proceeding for exactly the window up to the pending request's end time
      completes it, as a direct move would, when the service takes time; a
      zero-duration stop is reached but left open (it closes only once the
      crane proceeds beyond its arrival). */
  lemma ProceedUntilEndTime(reqs: Requests, c: Crane)
    requires HasPending(reqs, c) && !c.working
    requires Target(reqs, c).dur >= 0
    ensures var d := PendingCost(reqs, c);
      (Target(reqs, c).dur > 0 ==> ProceedPeriods(reqs, c, d) == ProceedNextReq(reqs, c)) &&
      (Target(reqs, c).dur == 0 ==>
         ProceedPeriods(reqs, c, d) == c.(bay := Target(reqs, c).pos))
  {
  }

  /** A zero-duration stop closes as soon as the crane proceeds past its
      arrival: the leftover time makes the recomputed work negative. */
  lemma ZeroDurationClosesAfterArrival(reqs: Requests, c: Crane, d: int)
    requires HasPending(reqs, c) && Target(reqs, c).dur == 0
    requires d > Abs(Target(reqs, c).pos - c.bay)
    ensures ProceedPeriods(reqs, c, d) == EndReq(c.(bay := Target(reqs, c).pos))
  {
  }

  /** Before its end time an idle crane has not completed its request. */
  lemma NoCompletionBeforeEndTime(reqs: Requests, c: Crane, d: int)
    requires HasPending(reqs, c) && !c.working
    requires 0 <= d < PendingCost(reqs, c)
    ensures ProceedPeriods(reqs, c, d).nextReq == c.nextReq
  {
  }

  /** A crane already working at its stop is not credited with the work it
      has done: proceeding for its remaining time restarts the count from the
      full duration, so a partly served request stays open. */
  lemma ProceedIgnoresRemainingWork(reqs: Requests, c: Crane)
    requires HasPending(reqs, c) && c.working
    requires c.bay == Target(reqs, c).pos
    requires 0 < c.remDur < Target(reqs, c).dur
    ensures var r := ProceedPeriods(reqs, c, c.remDur);
      r.working && r.nextReq == c.nextReq && r.remDur == Target(reqs, c).dur - c.remDur
  {
  }
}

=== FILE: priorities.dfy ===
/** The caller-facing table of priority decisions and its reconstruction
    from the predecessor chain of the terminal state. */
module PriorityTable {
  import opened CraneMotion
  import opened DpState
  import opened Frontier

  /** Map from a pair of request indices (crane 0, crane 1) to the crane
      that was given priority there (class Priorities). */
  datatype Priorities = Priorities(decisions: map<(int, int), CraneId>)

  predicate DecisionExists(p: Priorities, a: int, b: int) {
    (a, b) in p.decisions
  }

  /** The recorded crane for the pair, or None when no decision was taken. */
  function PrioritizedCrane(p: Priorities, a: int, b: int): (r: Option<CraneId>)
    ensures r.Some? <==> DecisionExists(p, a, b)
    ensures r.Some? ==> r.value == p.decisions[(a, b)]
  {
    if DecisionExists(p, a, b) then Some(p.decisions[(a, b)]) else None
  }

  /** Records a decision, replacing any earlier one for the same pair and
      leaving every other pair as it was. */
  function PutDecision(p: Priorities, a: int, b: int, crane: CraneId): (r: Priorities)
    ensures PrioritizedCrane(r, a, b) == Some(crane)
    ensures forall x, y | (x, y) != (a, b) :: PrioritizedCrane(r, x, y) == PrioritizedCrane(p, x, y)
  {
    Priorities(p.decisions[(a, b) := crane])
  }

  /** After recording a decision, one exists for a pair exactly when it is
      the recorded pair or one existed before. */
  lemma DecisionExistsAfterPut(p: Priorities, a: int, b: int, crane: CraneId, x: int, y: int)
    ensures DecisionExists(PutDecision(p, a, b, crane), x, y) <==> (x, y) == (a, b) || DecisionExists(p, x, y)
  {
  }

  /** The table a new Priorities object starts with: no decisions. */
  function Empty(): (r: Priorities)
    ensures forall a, b :: !DecisionExists(r, a, b)
  {
    Priorities(map[])
  }

  /** Request pairs of the conflict states on the predecessor chain from
      index k down to, but excluding, the root (the state without a
      predecessor). */
  function ChainPairs(states: seq<State>, k: int): set<(int, int)>
    requires Linked(states) && 0 <= k < |states|
    decreases k
  {
    if states[k].prev.None? then {}
    else {states[k].conf} + ChainPairs(states, states[k].prev.value)
  }

  /** Some conflict state on the chain from k has request pair key and
      priority p. */
  predicate ChainDecides(states: seq<State>, k: int, key: (int, int), p: CraneId)
    requires Linked(states) && 0 <= k < |states|
    decreases k
  {
    states[k].prev.Some? &&
    ((states[k].conf == key && states[k].prio == p) || ChainDecides(states, states[k].prev.value, key, p))
  }

  /** The backward walk of _stagePrioritySequence from index k, adding to acc
      the decision of every visited state that has a predecessor. */
  function Walk(states: seq<State>, k: int, acc: Priorities): (r: Priorities)
    requires Linked(states) && 0 <= k < |states|
    ensures r.decisions.Keys == acc.decisions.Keys + ChainPairs(states, k)
    ensures forall key | key in r.decisions ::
      ChainDecides(states, k, key, r.decisions[key]) ||
      (key in acc.decisions && r.decisions[key] == acc.decisions[key])
    decreases k
  {
    var s := states[k];
    if s.prev.None? then acc
    else Walk(states, s.prev.value, PutDecision(acc, s.conf.0, s.conf.1, s.prio))
  }

  /** Priority table of the path ending in s (_stagePrioritySequence): a
      decision exists for a pair exactly when a conflict state strictly
      between s and the root carries that pair, and the recorded crane is
      that state's priority. */
  function StagePrioritySequence(states: seq<State>, s: State): (r: Priorities)
    requires Linked(states)
    requires s.prev.Some? && s.prev.value < |states|
    ensures forall a, b :: DecisionExists(r, a, b) <==> (a, b) in ChainPairs(states, s.prev.value)
    ensures forall a, b | DecisionExists(r, a, b) ::
      ChainDecides(states, s.prev.value, (a, b), r.decisions[(a, b)])
  {
    Walk(states, s.prev.value, Empty())
  }
}

=== FILE: state.dfy ===
/** Search nodes of the dynamic program: a State records the decision point
    reached after one crane (the prioritized one) completed the request of a
    conflicting pair. */
module DpState {
  import opened CraneMotion

  datatype Option<T> = None | Some(value: T)

  /** bay: where each crane stands; prio: the crane that was given way;
      makespan: time at which the state is reached; conf: each crane's
      request cursor when the conflict was resolved; prev: index of the
      state it was expanded from, stamped by the driver. */
  datatype State = State(bay: (int, int), prio: CraneId, makespan: int, conf: (int, int), prev: Option<nat>) {
    function Bay(i: CraneId): int {
      if i == 0 then bay.0 else bay.1
    }

    function Conf(i: CraneId): int {
      if i == 0 then conf.0 else conf.1
    }
  }

  /** Cursor of crane i once the state is resumed: the prioritized crane has
      already completed its conflicting request. */
  function Progress(s: State, i: CraneId): int {
    s.Conf(i) + (if s.prio == i then 1 else 0)
  }

  /** Resuming the state leaves both cranes with a request to serve. */
  predicate Expandable(reqs: Requests, s: State) {
    0 <= Progress(s, 0) < |reqs.crane0| && 0 <= Progress(s, 1) < |reqs.crane1|
  }

  /** The finish marker: both cursors past the end, priority placeholder 0. */
  predicate IsTerminal(reqs: Requests, s: State) {
    s.conf == (|reqs.crane0|, |reqs.crane1|) && s.prio == 0
  }

  /** The driver's stop test: both cursors at or past their list's end. */
  predicate IsDone(reqs: Requests, s: State) {
    s.conf.0 >= |reqs.crane0| && s.conf.1 >= |reqs.crane1|
  }

  /** On the states the frontier holds, the driver's stop test picks out
      exactly the terminal state. */
  lemma DoneIffTerminal(reqs: Requests, s: State)
    requires Expandable(reqs, s) || IsTerminal(reqs, s)
    ensures IsDone(reqs, s) <==> IsTerminal(reqs, s)
  {
  }

  /** Rebuilds the live crane pair a state stands for (_deriveCranes). */
  function DeriveCranes(s: State): (r: Cranes)
    ensures WellNumbered(r) && !r.c0.working && !r.c1.working
    ensures r.c0.remDur == 0 && r.c1.remDur == 0
    ensures r.c0.bay == s.bay.0 && r.c1.bay == s.bay.1
    ensures r.c0.nextReq == Progress(s, 0) && r.c1.nextReq == Progress(s, 1)
  {
    Cranes(Crane(s.bay.0, 0, false, Progress(s, 0), 0),
           Crane(s.bay.1, 1, false, Progress(s, 1), 0))
  }

  /** The search's starting node: cursors (-1, 0) with crane 0 prioritized,
      which resumes as two fresh cranes at their start bays. */
  function Root(start: (int, int)): (r: State)
    ensures r.prev.None? && r.makespan == 0
    ensures r.conf == (-1, 0) && r.prio == 0 && r.bay == start
    ensures DeriveCranes(r) == Cranes(Crane(start.0, 0, false, 0, 0), Crane(start.1, 1, false, 0, 0))
  {
    State(start, 0, 0, (-1, 0), None)
  }

  /** A state resumes to a pair with pending work on both sides exactly when
      it is expandable. */
  lemma ExpandableIffPending(reqs: Requests, s: State)
    ensures Expandable(reqs, s) <==> Pending(reqs, DeriveCranes(s))
  {
  }

  /** Lexicographic order on the key (conf.0, conf.1, prio). */
  predicate KeyLess(a: State, b: State) {
    a.conf.0 < b.conf.0 ||
    (a.conf.0 == b.conf.0 && (a.conf.1 < b.conf.1 || (a.conf.1 == b.conf.1 && a.prio < b.prio)))
  }

  predicate SameKey(a: State, b: State) {
    a.conf == b.conf && a.prio == b.prio
  }

  /** Three-way comparison of keys (_compare); note the sign: -1 when the
      first state ranks higher. */
  function Compare(a: State, b: State): (r: int)
    ensures r == 0 <==> SameKey(a, b)
    ensures r == -1 <==> KeyLess(b, a)
    ensures r == 1 <==> KeyLess(a, b)
  {
    if a.conf.0 > b.conf.0 then -1
    else if a.conf.0 < b.conf.0 then 1
    else if a.conf.1 > b.conf.1 then -1
    else if a.conf.1 < b.conf.1 then 1
    else if a.prio > b.prio then -1
    else if a.prio < b.prio then 1
    else 0
  }

  /** Comparing in the other order flips the sign. */
  lemma CompareAntisymmetric(a: State, b: State)
    ensures Compare(a, b) == -Compare(b, a)
  {
  }

  /** Two states are comparable in exactly one way. */
  lemma KeyTrichotomy(a: State, b: State)
    ensures KeyLess(a, b) || SameKey(a, b) || KeyLess(b, a)
    ensures !(KeyLess(a, b) && KeyLess(b, a)) && !(KeyLess(a, b) && SameKey(a, b))
  {
  }

  /** A state whose cursors reach the progress of s on both cranes ranks
      strictly after s. */
  lemma BeyondProgressRanksAfter(s: State, t: State)
    requires t.conf.0 >= Progress(s, 0) && t.conf.1 >= Progress(s, 1)
    ensures KeyLess(s, t)
  {
  }
}

=== FILE: transitions.dfy ===
/** The transition engine: from a decision point, let both cranes run
    through conflict-free stretches until they either interfere (two branch
    states, one per priority) or one crane has finished (the terminal state). */
module TransitionEngine {
  import opened CraneMotion
  import opened DpState
  import opened InterferenceTest

  /** Terminal state (_letCranesFinish): both cranes complete their remaining
      requests unobstructed; the makespan is the later of the two finish
      times. */
  function LetCranesFinish(reqs: Requests, cs: Cranes, time: int): (r: State)
    requires WellNumbered(cs)
    requires 0 <= cs.c0.nextReq <= |reqs.crane0| && 0 <= cs.c1.nextReq <= |reqs.crane1|
    requires |reqs.crane0| > 0 && |reqs.crane1| > 0
    ensures IsTerminal(reqs, r) && r.prev.None?
    ensures r.bay == (reqs.crane0[|reqs.crane0| - 1].pos, reqs.crane1[|reqs.crane1| - 1].pos)
    ensures r.makespan == Max(FinishTime(reqs, cs.c0, time), FinishTime(reqs, cs.c1, time))
    ensures ValidDurations(reqs) && NoNegativeRemDur(cs) ==> r.makespan >= time
  {
    var finish0 := FinishTime(reqs, cs.c0, time);
    var finish1 := FinishTime(reqs, cs.c1, time);
    State((reqs.crane0[|reqs.crane0| - 1].pos, reqs.crane1[|reqs.crane1| - 1].pos),
          0, Max(finish0, finish1), (|reqs.crane0|, |reqs.crane1|), None)
  }

  /** Bays after resolving a conflict in favour of crane i: crane i stands
      on its target, the other crane right beside it on its own side. */
  function PriorityBays(target: int, i: CraneId): (r: (int, int))
    ensures r.1 == r.0 + 1
    ensures (if i == 0 then r.0 else r.1) == target
  {
    if i == 0 then (target, target + 1) else (target - 1, target)
  }

  /** One branch of a conflict: crane i goes first and completes its
      pending request at endTime, the other crane evades. If that leaves a
      crane without requests, the branch is replaced by the terminal state;
      otherwise it is the plain priority state. */
  function Branch(reqs: Requests, cs: Cranes, i: CraneId, endTime: int): (r: State)
    requires Pending(reqs, cs)
    ensures r.prev.None?
    ensures IsTerminal(reqs, r) || Expandable(reqs, r)
    ensures r.conf.0 >= cs.c0.nextReq && r.conf.1 >= cs.c1.nextReq
    ensures IsTerminal(reqs, r) <==> cs.At(i).nextReq + 1 == |reqs.Of(i)|
    ensures !IsTerminal(reqs, r) ==>
      && r.prio == i
      && r.conf == (cs.c0.nextReq, cs.c1.nextReq)
      && r.Bay(i) == Target(reqs, cs.At(i)).pos
      && r.bay.1 == r.bay.0 + 1
      && r.makespan == endTime
      && DeriveCranes(r).At(i) == ProceedNextReq(reqs, cs.At(i))
    ensures ValidDurations(reqs) ==> r.makespan >= endTime
  {
    var prioState := State(PriorityBays(Target(reqs, cs.At(i)).pos, i), i, endTime,
                           (cs.c0.nextReq, cs.c1.nextReq), None);
    var resumed := DeriveCranes(prioState);
    if HasFinished(reqs, resumed) then LetCranesFinish(reqs, resumed, prioState.makespan)
    else prioState
  }

  /** What every state _transitions returns from the live pair cs satisfies:
      no predecessor yet, expandable or terminal, no cursor below the pair's,
      and, unless terminal, the cranes side by side with bay1 = bay0 + 1. */
  predicate Successor(reqs: Requests, cs: Cranes, s: State) {
    && s.prev.None?
    && (IsTerminal(reqs, s) || Expandable(reqs, s))
    && s.conf.0 >= cs.c0.nextReq && s.conf.1 >= cs.c1.nextReq
    && (!IsTerminal(reqs, s) ==> s.bay.1 == s.bay.0 + 1)
  }

  /** The end time of crane i in a pair of end times. */
  function EndOf(ends: (int, int), i: CraneId): int {
    if i == 0 then ends.0 else ends.1
  }

  /** The crane that finishes first; crane 1 on equal end times. */
  function FirstToEnd(ends: (int, int)): (r: CraneId)
    ensures r == 0 <==> ends.0 < ends.1
    ensures EndOf(ends, r) == Min(ends.0, ends.1)
  {
    if ends.0 < ends.1 then 0 else 1
  }

  /** Both branches of a conflict (the for loop of _transitions): crane 0
      first, then crane 1 first, each at its own end time. Branches that are
      not replaced by the terminal state record the same conflict pair. */
  function ConflictBranches(reqs: Requests, cs: Cranes, ends: (int, int)): (r: seq<State>)
    requires Pending(reqs, cs)
    ensures |r| == 2
    ensures forall s | s in r :: Successor(reqs, cs, s)
    ensures (r[0].prio == 0 || IsTerminal(reqs, r[0])) && (r[1].prio == 1 || IsTerminal(reqs, r[1]))
    ensures !IsTerminal(reqs, r[0]) && !IsTerminal(reqs, r[1]) ==> r[0].conf == r[1].conf
    ensures forall k: CraneId | !IsTerminal(reqs, r[k]) ::
      && r[k].conf == (cs.c0.nextReq, cs.c1.nextReq)
      && r[k].Bay(k) == Target(reqs, cs.At(k)).pos
      && r[k].makespan == EndOf(ends, k)
    ensures forall k: CraneId :: IsTerminal(reqs, r[k]) <==> cs.At(k).nextReq + 1 == |reqs.Of(k)|
    ensures ValidDurations(reqs) ==> r[0].makespan >= ends.0 && r[1].makespan >= ends.1
  {
    var r := [Branch(reqs, cs, 0, ends.0), Branch(reqs, cs, 1, ends.1)];
    assert r[0] == Branch(reqs, cs, 0, ends.0) && r[1] == Branch(reqs, cs, 1, ends.1);
    r
  }

  /** Work still ahead of the pair, in requests. */
  function Remaining(reqs: Requests, cs: Cranes): int {
    (|reqs.crane0| - cs.c0.nextReq) + (|reqs.crane1| - cs.c1.nextReq)
  }

  /** One conflict-free pass of _transitions: the crane that finishes first
      jumps onto its target and completes its request, the other proceeds for
      the same window. The first crane's cursor advances by exactly one and
      the other's by at most one, so the work left strictly shrinks. */
  function Pass(reqs: Requests, cs: Cranes, first: CraneId, window: int): (r: Cranes)
    requires Pending(reqs, cs)
    ensures WellNumbered(r)
    ensures r.At(first).nextReq == cs.At(first).nextReq + 1
    ensures r.At(first).bay == Target(reqs, cs.At(first)).pos
    ensures r.At(Other(first)).nextReq == cs.At(Other(first)).nextReq ||
            r.At(Other(first)).nextReq == cs.At(Other(first)).nextReq + 1
    ensures r.At(first) == ProceedNextReq(reqs, cs.At(first))
    ensures r.At(Other(first)) == ProceedPeriods(reqs, cs.At(Other(first)), window)
    ensures Remaining(reqs, r) < Remaining(reqs, cs)
    ensures NoNegativeRemDur(cs) ==> NoNegativeRemDur(r)
  {
    var other := Other(first);
    cs.With(other, ProceedPeriods(reqs, cs.At(other), window))
      .With(first, ProceedNextReq(reqs, cs.At(first)))
  }

  /** The loop of _transitions from the live pair cs at the given time. Each
      conflict-free pass completes the request of the crane that finishes
      first (crane 1 on equal end times), so the loop runs at most
      Remaining(reqs, cs) times. */
  function Run(reqs: Requests, cs: Cranes, time: int): (r: seq<State>)
    requires Pending(reqs, cs)
    ensures 1 <= |r| <= 2
    ensures forall s | s in r :: Successor(reqs, cs, s)
    ensures |r| == 1 ==> IsTerminal(reqs, r[0])
    ensures |r| == 2 ==>
      (r[0].prio == 0 || IsTerminal(reqs, r[0])) && (r[1].prio == 1 || IsTerminal(reqs, r[1]))
    ensures |r| == 2 && !IsTerminal(reqs, r[0]) && !IsTerminal(reqs, r[1]) ==> r[0].conf == r[1].conf
    ensures ValidDurations(reqs) && NoNegativeRemDur(cs) ==> forall s | s in r :: s.makespan >= time
    ensures var ends := EndTimes(reqs, cs, time);
      Interference(reqs, cs, EndOf(ends, FirstToEnd(ends)), time, FirstToEnd(ends)) ==>
        r == ConflictBranches(reqs, cs, ends)
    decreases Remaining(reqs, cs)
  {
    var ends := EndTimes(reqs, cs, time);
    var first := FirstToEnd(ends);
    var finFirst := EndOf(ends, first);
    if Interference(reqs, cs, finFirst, time, first) then
      ConflictBranches(reqs, cs, ends)
    else
      var moved := Pass(reqs, cs, first, finFirst - time);
      if HasFinished(reqs, moved) then [LetCranesFinish(reqs, moved, finFirst)]
      else Run(reqs, moved, finFirst)
  }

  /** Successor states of an expandable state (_transitions): one terminal
      state, or the two branches of a conflict; when the resumed cranes
      interfere straight away, exactly the branches of that conflict. Every successor ranks
      strictly after the state it came from, and none is reached earlier. */
  function Transitions(reqs: Requests, st: State): (r: seq<State>)
    requires Expandable(reqs, st)
    ensures 1 <= |r| <= 2
    ensures forall s | s in r :: KeyLess(st, s)
    ensures forall s | s in r :: s.prev.None? && (IsTerminal(reqs, s) || Expandable(reqs, s))
    ensures |r| == 1 ==> IsTerminal(reqs, r[0])
    ensures |r| == 2 ==>
      (r[0].prio == 0 || IsTerminal(reqs, r[0])) && (r[1].prio == 1 || IsTerminal(reqs, r[1]))
    ensures |r| == 2 && !IsTerminal(reqs, r[0]) && !IsTerminal(reqs, r[1]) ==> r[0].conf == r[1].conf
    ensures forall s | s in r && !IsTerminal(reqs, s) :: s.bay.1 == s.bay.0 + 1
    ensures ValidDurations(reqs) ==> forall s | s in r :: s.makespan >= st.makespan
    ensures var cs := DeriveCranes(st);
      var ends := EndTimes(reqs, cs, st.makespan);
      Interference(reqs, cs, EndOf(ends, FirstToEnd(ends)), st.makespan, FirstToEnd(ends)) ==>
        r == ConflictBranches(reqs, cs, ends)
  {
    var cs := DeriveCranes(st);
    var r := Run(reqs, cs, st.makespan);
    forall s | s in r
      ensures KeyLess(st, s)
    {
      BeyondProgressRanksAfter(st, s);
    }
    r
  }
}
